=== FILE: README.md ===
# GV-Flicks core, modelled in Dafny

GV-Flicks is a Next.js movie browser on top of the TMDB API. Most of it is React rendering and
network calls passed straight through. This project models the parts that hold real logic, and
proves properties about them:

- **The watchlist store** (`watchlist_store.dfy`, module `WatchlistStore`). This is a class whose
  `items` field holds movie snapshots, newest first, with at most one entry per movie id. Its
  methods are add, remove, the membership query, clear and count. The class also has the toggle
  that the watchlist buttons attach to it. Each method is proved against a function of the old
  collection (`Added`, `Without`). The lemmas then state the store's promises about those
  functions: uniqueness of ids, order, idempotence, and removal of exactly one entry.
- **The helpers of the utilities module** (`utils.dfy`, module `Utils`). These are image URLs,
  runtime text, genre names, rating colours, truncation, YouTube URLs, the id-list membership
  test, clamp, the relative-time text and the movie sort.
  - `GetRelativeTime` loops over the interval table, as the source does.
  - `SortMovies` copies the movies into an array and sorts the array in place.
  - The sort is proved equal to a stable insertion sort (`stable_sort.dfy`, module
    `StableSort`). The proof shows that the result is a sorted permutation and that movies with
    equal keys keep their input order. ECMA-262 requires `Array.prototype.sort` to be stable
    (section 23.1.3.30).
- **The hero carousel** (`hero.dfy`, module `Hero`). This is a class with the `currentIndex` and
  `direction` fields. Its methods are next, previous, go-to-slide and the autoplay tick.
  - The transitions use JavaScript's truncating `%`. With no movies, `% 0` gives NaN.
    `JsNumbers.Num` models that NaN.
  - Lemmas prove that the index stays in bounds, that next and previous undo each other, and
    that n nexts return to the start.
- **The movies API route** (`movies_route.dfy`, module `MoviesRoute`). This covers:
  - the defaults for absent or empty query parameters;
  - the choice of TMDB endpoint and request parameters;
  - the 500 answer when the upstream call fails.

  The upstream call itself is a parameter.
- **The constant tables** (`constants.dfy`, module `Constants`). These are image sizes,
  categories and labels, genres and the genre list, rating tiers, placeholders, sort options and
  storage keys. Lemmas check their structural facts.

`types.dfy` holds the record shapes (`Movie`, `WatchlistItem`) and `Option`. `js_numbers.dfy`
holds the JavaScript number behaviour the core relies on:
- the truncating remainder;
- NaN from `% 0`;
- the decimal text of an integer in a template literal, with its inverse.

Numbers: ids, runtimes, timestamps and second counts are `int`. Ratings and popularity are `real`.
`Date.now()` is a `now` parameter. Parsing a release date (`new Date(d).getTime()`) is a
`timeOf` function parameter.

## Model

| member | source | states |
|---|---|---|
| JsNumbers.Rem | app/lib/utils/index.ts:60 | JavaScript `%`: the remainder takes the sign of the dividend and its magnitude is abs(a) mod abs(n), which fixes it for every sign of either operand; for non-negative operands it is the mathematical remainder |
| JsNumbers.RemSigns | app/lib/utils/index.ts:60 | -7 % 3 is -1, 7 % -3 is 1, -7 % -3 is -1 and 7 % 3 is 1 |
| JsNumbers.Mod | app/lib/components/ui/Hero.tsx:25 | `%` on a number that may be NaN: the result is NaN exactly when the dividend is NaN or the divisor is 0, and otherwise it is the JavaScript remainder of the two integers, in [0, n) for a non-negative dividend and positive n |
| JsNumbers.IntToString | app/lib/utils/index.ts:62-65 | the decimal text of an integer in a template literal is non-empty, starts with '-' exactly for negative numbers, and is otherwise all digits |
| JsNumbers.DigitsRoundTrip | app/lib/utils/index.ts:62-65 | reading back the decimal text of a natural number gives the number |
| JsNumbers.IntToStringInjective | app/lib/utils/index.ts:62-65 | different integers have different decimal texts |
| JsNumbers.SplitDigitsOf | app/lib/utils/index.ts:62-65 | a digit string followed by a non-digit splits back into the two parts |
| Constants.ImageSizeFamilies | app/lib/constants/index.ts:6-26 | every image family defines small, medium, large and original with non-empty tokens; only the poster family adds xlarge |
| Constants.ImageSizes | app/lib/constants/index.ts:6-26 | IMAGE_SIZES: the size tokens of each image family, keyed by variant name |
| Constants.CategoryTables | app/lib/constants/index.ts:29-43 | the five categories are distinct, and labels exist for exactly those categories |
| Constants.GenreKeysComplete | app/lib/constants/index.ts:46-66 | the key order used to list GENRES names exactly the GENRES keys |
| Constants.GenreKeyOrderAscending | app/lib/constants/index.ts:68-71 | `Object.entries` lists the integer-like genre keys in strictly ascending order |
| Constants.GenreList | app/lib/constants/index.ts:68-71 | GENRE_LIST: one record per listed key, in the `Object.entries` order |
| Constants.GenreListMatchesGenres | app/lib/constants/index.ts:46-71 | GENRE_LIST has 19 records, one per GENRES entry with that entry's name, and strictly ascending (hence distinct) ids |
| Constants.RatingTiersOrdered | app/lib/constants/index.ts:118-123 | tier minimums strictly decrease from excellent to poor (8 > 7 > 5 > 0), and the colours are pairwise distinct |
| Constants.Placeholder | app/lib/constants/index.ts:126-130 | every placeholder is a non-empty root-relative path |
| Constants.PlaceholdersDistinct | app/lib/constants/index.ts:126-130 | the three placeholder paths are pairwise distinct |
| StableSort.StableSortedCorrect | app/lib/utils/index.ts:214-241 | the stable sort returns a permutation of its input, sorted by rank, in which the elements of each rank keep their input order |
| StableSort.StableSortedOfSorted | app/lib/utils/index.ts:214-241 | an input already sorted by rank is returned unchanged |
| StableSort.InsertLast | app/lib/utils/index.ts:214-241 | one in-place insertion step turns the sorted prefix plus the next element into the functional insertion, and leaves the rest of the array alone |
| StableSort.InsertionSort | app/lib/utils/index.ts:214-241 | the in-place sort leaves the array holding exactly the stable sort of its old contents |
| Utils.GetImageUrl | app/lib/utils/index.ts:7-24 | an absent or empty path gives the family's placeholder, and only then; otherwise the URL is the image base, "/", the family's token for the requested variant (always defined, so no fallback) and the path |
| Utils.FormatRuntime | app/lib/utils/index.ts:56-66 | the text is "N/A" exactly when the runtime is absent or 0 |
| Utils.FormatRuntimeParts | app/lib/utils/index.ts:56-66 | for a positive runtime m, with h = m div 60 and r = m mod 60 (so 60h + r = m), the text is "{r}m" when h = 0, "{h}h" when r = 0, and "{h}h {r}m" otherwise |
| Utils.FormatRuntimeRoundTrip | app/lib/utils/index.ts:56-66 | reading the text of a positive runtime back gives the same number of minutes, and "N/A" reads as no runtime |
| Utils.KnownGenreNames | app/lib/utils/index.ts:102-108 | no more names than ids, and every name is a GENRES name |
| Utils.GenreNamesSingle | app/lib/utils/index.ts:105-107 | a single id gives its GENRES name when GENRES knows it and nothing otherwise, so unknown ids are dropped |
| Utils.GetGenreNames | app/lib/utils/index.ts:102-108 | an absent or empty id list gives no names; otherwise the names of the known ids, which GenreNamesSingle and GenreNamesAppend fix position by position |
| Utils.GenreNamesAppend | app/lib/utils/index.ts:102-108 | the names follow the input order: the names of a concatenation are the concatenation of the names |
| Utils.GenreNamesAllKnown | app/lib/utils/index.ts:102-108 | when every id is a known genre, nothing is dropped and position i holds the name of id i |
| Utils.ScanTiers | app/lib/constants/index.ts:118-123 | the table scan picks the first tier whose minimum the rating reaches, or the last tier |
| Utils.GetRatingColor | app/lib/utils/index.ts:113-121 | an absent or zero rating gives the poor colour, and every result is one of the four RATING_COLORS colours |
| Utils.RatingColorIsTableTier | app/lib/utils/index.ts:113-121 | the falsy check and the if-chain pick the colour of the RATING_COLORS tier the table scan selects (poor for an absent or zero rating) |
| Utils.RatingTierMonotone | app/lib/utils/index.ts:113-121 | a higher rating never gets a worse tier |
| Utils.TruncateText | app/lib/utils/index.ts:126-131 | an absent or empty text gives ""; a text that fits comes back unchanged; a longer one becomes a prefix of length max(maxLength, 0) followed by "..." |
| Utils.GetYouTubeEmbedUrl | app/lib/utils/index.ts:136-138 | the embed URL is the fixed prefix, then the video key, then the fixed query `?autoplay=1&rel=0`, and nothing else |
| Utils.EmbedUrlInjective | app/lib/utils/index.ts:136-138 | different video keys give different embed URLs |
| Utils.QualityFile | app/lib/utils/index.ts:143-151 | no quality file name contains a slash |
| Utils.GetYouTubeThumbnail | app/lib/utils/index.ts:143-151 | the thumbnail URL is the fixed prefix, the video key, "/", the file name of the quality, and ".jpg", in that order and nothing else |
| Utils.ThumbnailUrlInjective | app/lib/utils/index.ts:143-151 | different (video key, quality) pairs give different thumbnail URLs, even for keys that contain slashes |
| Utils.IsInWatchlist | app/lib/utils/index.ts:172-174 | true exactly when the id occurs in the list |
| Utils.Clamp | app/lib/utils/index.ts:253-255 | with min <= max the result lies in [min, max], equals an in-range value, is min below the range and max above it; with max < min the result is max |
| Utils.GetRelativeTime | app/lib/utils/index.ts:179-201 | under a minute (including negative differences) gives "just now"; otherwise the count of the largest unit that fits, with the unit's name, a plural "s" above one, and " ago" |
| Utils.SortOptionsRecognised | app/lib/constants/index.ts:74-81 | SORT_OPTIONS offers exactly the sortBy values that sortMovies recognises |
| Utils.ParseSortBy | app/lib/utils/index.ts:218-240 | the switch: six sortBy strings select a field and a direction, anything else selects none |
| Utils.SortKey | app/lib/utils/index.ts:220-237 | the comparator key: popularity or vote average with a missing value read as 0, or the release timestamp with a missing or empty date read as 0 |
| Utils.Rank | app/lib/utils/index.ts:219-238 | the comparator as an ascending rank: the key, negated for a descending order |
| Utils.SortMovies | app/lib/utils/index.ts:214-241 | the result is a permutation of the input. An unknown sortBy keeps the input order. A known one sorts stably by the key (a missing value counts as 0) in the requested direction, and movies with equal keys keep their input order |
| WatchlistStore.Snapshot | app/lib/store/watchlistStore.ts:28-35 | the stored item copies the movie's id, title, poster path, vote average and release date, and records the time of the add |
| WatchlistStore.Has | app/lib/store/watchlistStore.ts:47 | `items.some(item => item.id === id)`: some entry has the id |
| WatchlistStore.MovieOfItem | app/watchlist/page.tsx:85-93 | snapshotting the movie rebuilt from an item, at the item's own time, gives back the item |
| WatchlistStore.Added | app/lib/store/watchlistStore.ts:20-38 | after an add the id is present, other ids are unaffected, distinct ids stay distinct, and the length grows by one exactly when the id was absent |
| WatchlistStore.AddOrder | app/lib/store/watchlistStore.ts:20-38 | adding a, b and c (distinct ids) to an empty watchlist gives [c, b, a] |
| WatchlistStore.AddPresent | app/lib/store/watchlistStore.ts:23-26 | adding an id already present leaves the collection as it is |
| WatchlistStore.AddIdempotent | app/lib/store/watchlistStore.ts:23-26 | a second add of the same movie, at any time, equals a single add |
| WatchlistStore.Without | app/lib/store/watchlistStore.ts:42 | the remove filter; it never lengthens the collection, and WithoutElements states which entries it keeps |
| WatchlistStore.WithoutElements | app/lib/store/watchlistStore.ts:40-44 | the filter keeps exactly the entries with a different id |
| WatchlistStore.WithoutAppend | app/lib/store/watchlistStore.ts:40-44 | the filter keeps relative order: filtering a concatenation concatenates the filtered parts |
| WatchlistStore.WithoutMembership | app/lib/store/watchlistStore.ts:40-44 | after removing k no entry has id k, every other id is present exactly as before, and ids stay distinct |
| WatchlistStore.WithoutDistinct | app/lib/store/watchlistStore.ts:40-44 | removal keeps ids distinct |
| WatchlistStore.WithoutAbsent | app/lib/store/watchlistStore.ts:40-44 | removing an absent id leaves the collection unchanged |
| WatchlistStore.WithoutPresent | app/lib/store/watchlistStore.ts:40-44 | with distinct ids, removing the id of entry i drops exactly that entry and keeps the others in order |
| WatchlistStore.WithoutIdempotent | app/lib/store/watchlistStore.ts:40-44 | removing twice is removing once |
| WatchlistStore.CountIsDistinctIds | app/lib/store/watchlistStore.ts:54-56 | with distinct ids the number of entries is the number of distinct ids |
| WatchlistStore.Watchlist.constructor | app/lib/store/watchlistStore.ts:18 | the store starts empty, which satisfies the distinct-ids invariant |
| WatchlistStore.Watchlist.AddToWatchlist | app/lib/store/watchlistStore.ts:20-38 | the new collection is `Added` of the old one (the snapshot prepended when the id was absent), and ids stay distinct |
| WatchlistStore.Watchlist.RemoveFromWatchlist | app/lib/store/watchlistStore.ts:40-44 | the new collection is the old one filtered by id; the id is then absent, and ids stay distinct |
| WatchlistStore.Watchlist.IsInWatchlist | app/lib/store/watchlistStore.ts:46-48 | true exactly when some entry has the id; it changes nothing |
| WatchlistStore.Watchlist.ClearWatchlist | app/lib/store/watchlistStore.ts:50-52 | afterwards the collection is empty and no id is a member |
| WatchlistStore.Watchlist.GetWatchlistCount | app/lib/store/watchlistStore.ts:54-56 | the count is the number of entries, which is also the number of distinct ids |
| WatchlistStore.Watchlist.Toggle | app/lib/components/ui/WatchlistButton.tsx:17-25 | the toggle removes a present movie (the old collection filtered by its id) and otherwise adds it (`Added` of the old collection, its snapshot first); so membership flips and the entries with other ids stay exactly as they were |
| Hero.Featured | app/lib/components/ui/Hero.tsx:19 | the featured movies are the first min(5, n) movies |
| Hero.Step | app/lib/components/ui/Hero.tsx:22-44 | a dot click moves to its own slide, and every transition sets the direction to 1 or -1 |
| Hero.NextIndex | app/lib/components/ui/Hero.tsx:41-44 | `(prev + 1) % n` with NaN propagated |
| Hero.PreviousIndex | app/lib/components/ui/Hero.tsx:36-39 | `(prev - 1 + n) % n` with NaN propagated |
| Hero.SlideDirection | app/lib/components/ui/Hero.tsx:32 | `index > currentIndex ? 1 : -1`, where a comparison with NaN is false |
| Hero.StepInBounds | app/lib/components/ui/Hero.tsx:22-44 | next, tick, previous and a dot click for an existing slide keep the index a valid slide. The direction is 1 for next and the tick, -1 for previous, and for a dot 1 exactly when the dot lies after the current slide |
| Hero.StepWraps | app/lib/components/ui/Hero.tsx:36-44 | next moves one slide forward and wraps from the last slide to the first; previous moves one back and wraps from the first to the last |
| Hero.PreviousUndoesNext | app/lib/components/ui/Hero.tsx:36-44 | previous after next, and next after previous, restore the index |
| Hero.NextTimesIsShift | app/lib/components/ui/Hero.tsx:41-44 | k <= n next moves advance the index by k slides, wrapping at most once |
| Hero.NextCycle | app/lib/components/ui/Hero.tsx:41-44 | n consecutive next moves return to the starting slide |
| Hero.RunInBounds | app/lib/components/ui/Hero.tsx:190-193 | from a valid slide, any sequence of arrow clicks, ticks and dot clicks keeps the index a valid slide |
| Hero.NoMoviesTickGivesNaN | app/lib/components/ui/Hero.tsx:25 | with no featured movies a tick makes the index NaN, and later arrow clicks and ticks keep it NaN |
| Hero.Carousel.CurrentMovie | app/lib/components/ui/Hero.tsx:20 | a movie is shown exactly when the index is a valid slide, and it is one of the featured movies |
| Hero.Carousel.constructor | app/lib/components/ui/Hero.tsx:16-19 | the carousel starts at slide 0 with direction 0, and it shows a movie exactly when there is at least one movie |
| Hero.Carousel.GoToNext | app/lib/components/ui/Hero.tsx:41-44 | the new state is the next transition of the old one, and a valid index stays valid |
| Hero.Carousel.Tick | app/lib/components/ui/Hero.tsx:22-26 | the autoplay tick makes the same transition as next |
| Hero.Carousel.GoToPrevious | app/lib/components/ui/Hero.tsx:36-39 | the new state is the previous transition of the old one, and a valid index stays valid |
| Hero.Carousel.GoToSlide | app/lib/components/ui/Hero.tsx:31-34 | the index becomes the dot's slide; the direction is 1 when that slide is after the current one, -1 otherwise |
| MoviesRoute.OrDefault | app/api/movies/route.ts:9-12 | an absent or empty parameter takes the default, and any other value is kept |
| MoviesRoute.ResolveParams | app/api/movies/route.ts:9-12 | each of category, page and time window is the given value when non-empty and otherwise its default ("trending", "1", "week"), so never empty; the query is passed unchanged |
| MoviesRoute.Select | app/api/movies/route.ts:20-50 | a non-empty query selects `/search/movie` whatever the category. Trending uses the time window. The other four categories use `/movie/{category}`, and any other category falls back to `/trending/movie/week`. The page is always sent, the query only on the search branch |
| MoviesRoute.SelectEndpoint | app/api/movies/route.ts:20-50 | the if/else chain of the handler produces exactly the request `Select` describes |
| MoviesRoute.SelectExamples | app/api/movies/route.ts:9-50 | `?category=popular&page=3` requests `/movie/popular` with page 3; empty parameters fall back to the weekly trending list, page 1 |
| MoviesRoute.Get | app/api/movies/route.ts:19-65 | the request is `Select` of the resolved parameters, so the endpoint and page follow the given category, page, query and time window. The page is always sent ("1" by default), and the query key appears exactly for a non-empty query. Upstream data comes back with status 200; any failure becomes status 500 with `{error: "Failed to fetch movies"}` |

## Left out

- Persistence of the store to localStorage (`app/lib/store/watchlistStore.ts:58-60`) is library behaviour of the zustand `persist` middleware.
- The axios request (`app/api/movies/route.ts:52-59`), its headers and access token, and all of `app/lib/tmdb.ts` are network I/O. The model takes only the success or failure outcome.
- The `console.log` and `console.error` calls in the route are logging only.
- Authentication (`app/api/auth/*`, `app/lib/session.ts`) depends on a database, bcrypt and cookie sessions.
- React rendering, styling and Hero's animation variants are left out. Other components hold only display state: whether an image has loaded, whether the menu is open, the search text, and the fetched lists. None of that state has behaviour to state beyond the carousel index and direction.
- The `setInterval` timer itself is a clock. The model has one tick as a method; the 6-second period is not modelled.
- `formatDate`, `formatCurrency`, `formatNumber` and `calculatePercentage` use locale formatting and floating-point rounding.
- `generateId` uses the clock and randomness.
- `debounce` is a timer.
- The constants `TIME_WINDOWS`, `DEFAULT_PAGE_SIZE`, `MAX_PAGES`, `ANIMATION` and `BREAKPOINTS` are not read by the modelled code.
- Utils.GetRelativeTime: takes the whole-second difference as input. Reading the clock and parsing the date string are left out, and so is an unparsable date, which gives NaN and hence "just now".
- Utils.SortMovies: a release date's timestamp comes from the parameter `timeOf`. An unparsable date, whose NaN makes the JavaScript comparator inconsistent, is not modelled.
- Utils.FormatRuntime: models whole-minute runtimes only. A fractional or NaN runtime is not modelled.
- Utils.GetRatingColor: a NaN rating is not modelled. Ratings and popularity are exact reals, not IEEE doubles.
- Utils.Clamp: the arguments are exact reals; NaN (which `Math.max` and `Math.min` propagate, so `clamp(NaN, 0, 10)` is NaN) and ±Infinity are not modelled, and the bound the contract states does not hold for them.
- Utils.TruncateText: lengths count characters, where JavaScript counts UTF-16 code units.
- Utils.GetImageUrl: the default arguments (`size = 'poster'`, `sizeVariant = 'medium'`) are not modelled; the two callers in the source (MovieCard and Hero) pass both. A call relying on the defaults is the same call with those values written out.
- Utils.GetYouTubeThumbnail: the default `quality = 'hq'` is not modelled; no caller in the source relies on the default.
- JavaScript numbers are IEEE doubles, while the model's ids, timestamps and runtimes are exact integers. Precision lost above 2^53, and the exponent notation of `${n}` from 1e21 up, are not modelled.
- Hero.Carousel.GoToSlide: models only the slide numbers that the dots pass, which are integers.

=== FILE: constants.dfy ===
/** The constant tables of app/lib/constants/index.ts that the helpers, the
    carousel and the route consult. */
module Constants {

  const TmdbBaseUrl: string := "https://api.themoviedb.org/3"
  const TmdbImageBaseUrl: string := "https://image.tmdb.org/t/p"

  /** The three image families of IMAGE_SIZES. */
  datatype ImageKind = Poster | Backdrop | Profile

  /** IMAGE_SIZES: for each family, the size tokens by variant name. */
  function ImageSizes(kind: ImageKind): map<string, string>
  {
    match kind
    case Poster =>
      map["small" := "w185", "medium" := "w342", "large" := "w500", "xlarge" := "w780", "original" := "original"]
    case Backdrop =>
      map["small" := "w300", "medium" := "w780", "large" := "w1280", "original" := "original"]
    case Profile =>
      map["small" := "w45", "medium" := "w185", "large" := "h632", "original" := "original"]
  }

  /** Every family defines small, medium, large and original with non-empty tokens,
      and only the poster family adds xlarge. */
  lemma ImageSizeFamilies(kind: ImageKind)
    ensures forall v :: v in ["small", "medium", "large", "original"] ==>
      v in ImageSizes(kind) && ImageSizes(kind)[v] != ""
    ensures "xlarge" in ImageSizes(kind) <==> kind == Poster
    ensures ImageSizes(kind).Keys ==
      {"small", "medium", "large", "original"} + (if kind == Poster then {"xlarge"} else {})
  {
  }

  /** MOVIE_CATEGORIES, in declaration order. */
  const Trending: string := "trending"
  const Popular: string := "popular"
  const TopRated: string := "top_rated"
  const Upcoming: string := "upcoming"
  const NowPlaying: string := "now_playing"
  const MovieCategories: seq<string> := [Trending, Popular, TopRated, Upcoming, NowPlaying]

  /** CATEGORY_LABELS, keyed by category value. */
  const CategoryLabels: map<string, string> := map[
    Trending := "Trending This Week",
    Popular := "Popular Movies",
    TopRated := "Top Rated",
    Upcoming := "Coming Soon",
    NowPlaying := "Now Playing"
  ]

  /** The five categories are distinct and each has a label; no label is defined
      for anything else. */
  lemma CategoryTables()
    ensures |MovieCategories| == 5
    ensures forall i, j :: 0 <= i < j < |MovieCategories| ==> MovieCategories[i] != MovieCategories[j]
    ensures forall c :: c in CategoryLabels <==> c in MovieCategories
  {
  }

  /** GENRES: genre id to name. */
  const Genres: map<int, string> := map[
    28 := "Action",
    12 := "Adventure",
    16 := "Animation",
    35 := "Comedy",
    80 := "Crime",
    99 := "Documentary",
    18 := "Drama",
    10751 := "Family",
    14 := "Fantasy",
    36 := "History",
    27 := "Horror",
    10402 := "Music",
    9648 := "Mystery",
    10749 := "Romance",
    878 := "Science Fiction",
    10770 := "TV Movie",
    53 := "Thriller",
    10752 := "War",
    37 := "Western"
  ]

  datatype Genre = Genre(id: int, name: string)

  /** The order in which `Object.entries` lists the keys of GENRES: they are all
      integer-like, and ECMA-262 (OrdinaryOwnPropertyKeys, section 10.1.11.1) lists
      such keys in ascending numeric order, not in declaration order. */
  const GenreKeyOrder: seq<int> :=
    [12, 14, 16, 18, 27, 28, 35, 36, 37, 53, 80, 99, 878, 9648, 10402, 10749, 10751, 10752, 10770]

  /** GENRE_LIST: one {id, name} record per entry of GENRES, in key order. */
  function GenreList(): (list: seq<Genre>)
    ensures |list| == |GenreKeyOrder|
  {
    seq(|GenreKeyOrder|, i requires 0 <= i < |GenreKeyOrder| =>
      Genre(GenreKeyOrder[i], if GenreKeyOrder[i] in Genres then Genres[GenreKeyOrder[i]] else ""))
  }

  /** The keys listed by GenreKeyOrder ascend strictly. */
  lemma GenreKeyOrderAscending()
    ensures forall i, j :: 0 <= i < j < |GenreKeyOrder| ==> GenreKeyOrder[i] < GenreKeyOrder[j]
  {
  }

  /** The keys listed by GenreKeyOrder are exactly those of GENRES. */
  lemma GenreKeysComplete()
    ensures forall k :: k in Genres <==> k in GenreKeyOrder
  {
    assert Genres.Keys == {12, 14, 16, 18, 27, 28, 35, 36, 37, 53, 80, 99, 878, 9648, 10402, 10749, 10751, 10752, 10770};
  }

  /** GENRE_LIST has exactly one record per GENRES entry, with the name GENRES gives
      that id, and its ids are strictly ascending (hence distinct). */
  lemma GenreListMatchesGenres()
    ensures |GenreList()| == 19
    ensures forall i :: 0 <= i < |GenreList()| ==>
      GenreList()[i].id in Genres && GenreList()[i].name == Genres[GenreList()[i].id]
    ensures forall k :: k in Genres ==> Genre(k, Genres[k]) in GenreList()
    ensures forall i, j :: 0 <= i < j < |GenreList()| ==> GenreList()[i].id < GenreList()[j].id
  {
    var list := GenreList();
    GenreKeysComplete();
    GenreKeyOrderAscending();
    assert forall i :: 0 <= i < |list| ==> list[i].id == GenreKeyOrder[i];
    forall k | k in Genres
      ensures Genre(k, Genres[k]) in list
    {
      var i :| 0 <= i < |GenreKeyOrder| && GenreKeyOrder[i] == k;
      assert list[i] == Genre(k, Genres[k]);
    }
  }

  /** RATING_COLORS, best tier first. */
  datatype RatingTier = RatingTier(min: real, color: string)

  const Excellent: RatingTier := RatingTier(8.0, "from-green-500 to-emerald-600")
  const Good: RatingTier := RatingTier(7.0, "from-yellow-500 to-amber-600")
  const Average: RatingTier := RatingTier(5.0, "from-orange-500 to-orange-600")
  const Poor: RatingTier := RatingTier(0.0, "from-red-500 to-red-600")
  const RatingTiers: seq<RatingTier> := [Excellent, Good, Average, Poor]

  /** The tier minimums strictly decrease from excellent to poor, and the colours are
      pairwise distinct (so a colour names its tier). */
  lemma RatingTiersOrdered()
    ensures forall i, j :: 0 <= i < j < |RatingTiers| ==> RatingTiers[i].min > RatingTiers[j].min
    ensures forall i, j :: 0 <= i < j < |RatingTiers| ==> RatingTiers[i].color != RatingTiers[j].color
  {
  }

  /** PLACEHOLDERS, by image family. */
  const PosterPlaceholder: string := "/placeholder-movie.jpg"
  const BackdropPlaceholder: string := "/placeholder-backdrop.jpg"
  const ProfilePlaceholder: string := "/placeholder-profile.jpg"

  function Placeholder(kind: ImageKind): (path: string)
    ensures |path| > 0 && path[0] == '/'
  {
    match kind
    case Poster => PosterPlaceholder
    case Backdrop => BackdropPlaceholder
    case Profile => ProfilePlaceholder
  }

  /** The three placeholder paths are pairwise distinct. */
  lemma PlaceholdersDistinct(a: ImageKind, b: ImageKind)
    ensures Placeholder(a) == Placeholder(b) <==> a == b
  {
  }

  /** SORT_OPTIONS: value and label of each sort choice offered to the user. */
  datatype SortOption = SortOption(value: string, labelText: string)

  const SortOptions: seq<SortOption> := [
    SortOption("popularity.desc", "Popularity (High to Low)"),
    SortOption("popularity.asc", "Popularity (Low to High)"),
    SortOption("vote_average.desc", "Rating (High to Low)"),
    SortOption("vote_average.asc", "Rating (Low to High)"),
    SortOption("release_date.desc", "Release Date (Newest)"),
    SortOption("release_date.asc", "Release Date (Oldest)")
  ]

  /** STORAGE_KEYS; only the watchlist key is used by the modelled core. */
  const WatchlistStorageKey: string := "gv-flicks-watchlist"
  const ThemeStorageKey: string := "gv-flicks-theme"
  const RecentSearchesStorageKey: string := "gv-flicks-recent-searches"
}

=== FILE: hero.dfy ===
/** The slide index machine of the hero carousel in app/lib/components/ui/Hero.tsx.
    The component shows the first five movies; its state is the current slide index and
    the direction of the last move (1 forward, -1 backward, 0 before any move). The
    transitions use JavaScript's `%`, so with no movies at all an index update yields
    NaN, and the component then renders nothing. */
module Hero {
  import opened Types
  import opened JsNumbers

  const MaxFeatured: nat := 5

  /** `movies.slice(0, 5)`. */
  function Featured(movies: seq<Movie>): (featured: seq<Movie>)
    ensures |featured| == if |movies| < MaxFeatured then |movies| else MaxFeatured
    ensures featured == movies[..|featured|]
  {
    if |movies| < MaxFeatured then movies else movies[..MaxFeatured]
  }

  /** The carousel state: `currentIndex` and `direction`. */
  datatype SlideState = SlideState(index: Num, direction: int)

  /** What the user or the timer can do: the arrows, the interval tick, a dot. */
  datatype Action = GoToNext | GoToPrevious | Tick | GoToSlide(target: int)

  /** `(prev + 1) % n` */
  function NextIndex(index: Num, n: nat): Num
  {
    if index.NaN? then NaN else Mod(Int(index.v + 1), n)
  }

  /** `(prev - 1 + n) % n` */
  function PreviousIndex(index: Num, n: nat): Num
  {
    if index.NaN? then NaN else Mod(Int(index.v - 1 + n), n)
  }

  /** `index > currentIndex ? 1 : -1`; a comparison with NaN is false. */
  function SlideDirection(target: int, current: Num): int
  {
    if current.Int? && target > current.v then 1 else -1
  }

  /** One transition over `n` featured movies. */
  function Step(s: SlideState, action: Action, n: nat): (t: SlideState)
    ensures action.GoToSlide? ==> t.index == Int(action.target)
    ensures t.direction == 1 || t.direction == -1
  {
    match action
    case GoToNext => SlideState(NextIndex(s.index, n), 1)
    case Tick => SlideState(NextIndex(s.index, n), 1)
    case GoToPrevious => SlideState(PreviousIndex(s.index, n), -1)
    case GoToSlide(target) => SlideState(Int(target), SlideDirection(target, s.index))
  }

  predicate InBounds(index: Num, n: nat)
  {
    index.Int? && 0 <= index.v < n
  }

  /** Next, tick and previous keep an in-bounds index in bounds, and a dot moves to its
      own slide; the direction is 1 for next and tick, -1 for previous, and for a dot 1
      exactly when it lies after the current slide. */
  lemma StepInBounds(s: SlideState, action: Action, n: nat)
    requires InBounds(s.index, n)
    requires action.GoToSlide? ==> 0 <= action.target < n
    ensures InBounds(Step(s, action, n).index, n)
    ensures Step(s, action, n).direction ==
      match action
      case GoToNext => 1
      case Tick => 1
      case GoToPrevious => -1
      case GoToSlide(k) => if k > s.index.v then 1 else -1
  {
  }

  lemma ModSmall(a: int, n: int)
    requires 0 <= a < n
    ensures a % n == a
  {
  }

  lemma ModOnce(a: int, n: int)
    requires 0 < n <= a < 2 * n
    ensures a % n == a - n
  {
    assert a == n * 1 + (a - n);
  }

  /** Next moves one slide forward and wraps from the last slide to the first;
      previous moves one back and wraps from the first to the last. */
  lemma {:induction false} StepWraps(i: int, n: nat)
    requires 0 <= i < n
    ensures NextIndex(Int(i), n) == Int(if i + 1 < n then i + 1 else 0)
    ensures PreviousIndex(Int(i), n) == Int(if i > 0 then i - 1 else n - 1)
  {
    if i + 1 < n { ModSmall(i + 1, n); } else { ModOnce(i + 1, n); }
    if i > 0 { ModOnce(i - 1 + n, n); } else { ModSmall(n - 1, n); }
  }

  /** Previous undoes next, and next undoes previous. */
  lemma {:induction false} PreviousUndoesNext(i: int, n: nat)
    requires 0 <= i < n
    ensures PreviousIndex(NextIndex(Int(i), n), n) == Int(i)
    ensures NextIndex(PreviousIndex(Int(i), n), n) == Int(i)
  {
    StepWraps(i, n);
    StepWraps(if i + 1 < n then i + 1 else 0, n);
    StepWraps(if i > 0 then i - 1 else n - 1, n);
  }

  /** The index after `k` next moves from index `i`. */
  function NextTimes(i: Num, k: nat, n: nat): Num
  {
    if k == 0 then i else NextIndex(NextTimes(i, k - 1, n), n)
  }

  /** Up to `n` next moves advance the index by that many slides, wrapping once. */
  lemma {:induction false} NextTimesIsShift(i: int, k: nat, n: nat)
    requires 0 <= i < n && k <= n
    ensures NextTimes(Int(i), k, n) == Int(if i + k < n then i + k else i + k - n)
  {
    if k > 0 {
      NextTimesIsShift(i, k - 1, n);
      StepWraps(if i + k - 1 < n then i + k - 1 else i + k - 1 - n, n);
    }
  }

  /** `n` consecutive next moves come back to the starting slide. */
  lemma NextCycle(i: int, n: nat)
    requires 0 <= i < n
    ensures NextTimes(Int(i), n, n) == Int(i)
  {
    NextTimesIsShift(i, n, n);
  }

  /** The state after a sequence of actions. */
  function Run(s: SlideState, actions: seq<Action>, n: nat): SlideState
    decreases |actions|
  {
    if actions == [] then s else Run(Step(s, actions[0], n), actions[1..], n)
  }

  /** Starting at slide 0 with at least one featured movie, any sequence of arrow
      clicks, ticks and dot clicks (dots exist only for slides 0 to n-1) keeps the
      index a valid slide. */
  lemma {:induction false} RunInBounds(s: SlideState, actions: seq<Action>, n: nat)
    requires InBounds(s.index, n)
    requires forall i :: 0 <= i < |actions| && actions[i].GoToSlide? ==> 0 <= actions[i].target < n
    ensures InBounds(Run(s, actions, n).index, n)
    decreases |actions|
  {
    if actions != [] {
      StepInBounds(s, actions[0], n);
      RunInBounds(Step(s, actions[0], n), actions[1..], n);
    }
  }

  /** With no movies, the first tick makes the index NaN, and no arrow or tick brings
      it back: next and previous keep NaN whatever the number of slides. */
  lemma NoMoviesTickGivesNaN(s: SlideState, n: nat)
    ensures Step(s, Tick, 0).index == NaN
    ensures NextIndex(NaN, n) == NaN && PreviousIndex(NaN, n) == NaN
  {
  }

  /** The carousel component: the featured movies and the two state fields. */
  class Carousel {
    const featured: seq<Movie>
    var currentIndex: Num
    var direction: int

    function State(): SlideState
      reads this
    {
      SlideState(currentIndex, direction)
    }

    /** `featuredMovies[currentIndex]`, undefined when the index is not a slide; the
        component renders nothing then. */
    function CurrentMovie(): (movie: Option<Movie>)
      reads this
      ensures movie.Some? <==> InBounds(currentIndex, |featured|)
      ensures movie.Some? ==> movie.value in featured
    {
      if InBounds(currentIndex, |featured|) then Some(featured[currentIndex.v]) else None
    }

    constructor (movies: seq<Movie>)
      ensures featured == Featured(movies)
      ensures State() == SlideState(Int(0), 0)
      ensures CurrentMovie().Some? <==> |movies| > 0
    {
      featured := Featured(movies);
      currentIndex := Int(0);
      direction := 0;
    }

    method GoToNext()
      modifies this
      ensures State() == Step(old(State()), Action.GoToNext, |featured|)
      ensures old(InBounds(currentIndex, |featured|)) ==> InBounds(currentIndex, |featured|)
    {
      if InBounds(currentIndex, |featured|) {
        StepInBounds(State(), Action.GoToNext, |featured|);
      }
      direction := 1;
      currentIndex := NextIndex(currentIndex, |featured|);
    }

    /** The interval callback; it runs the same update as the next arrow. */
    method Tick()
      modifies this
      ensures State() == Step(old(State()), Action.Tick, |featured|)
      ensures old(InBounds(currentIndex, |featured|)) ==> InBounds(currentIndex, |featured|)
    {
      GoToNext();
    }

    method GoToPrevious()
      modifies this
      ensures State() == Step(old(State()), Action.GoToPrevious, |featured|)
      ensures old(InBounds(currentIndex, |featured|)) ==> InBounds(currentIndex, |featured|)
    {
      if InBounds(currentIndex, |featured|) {
        StepInBounds(State(), Action.GoToPrevious, |featured|);
      }
      direction := -1;
      currentIndex := PreviousIndex(currentIndex, |featured|);
    }

    method GoToSlide(index: int)
      modifies this
      ensures State() == Step(old(State()), Action.GoToSlide(index), |featured|)
      ensures 0 <= index < |featured| ==> InBounds(currentIndex, |featured|)
    {
      direction := SlideDirection(index, currentIndex);
      currentIndex := Int(index);
    }
  }
}

=== FILE: js_numbers.dfy ===
/** The few pieces of JavaScript number semantics that the modelled core relies on:
    the truncating `%` operator, `NaN` as the result of `% 0`, and the decimal text
    that a template literal gives an integer (`${n}`). */
module JsNumbers {

  /** A JavaScript number as far as the model needs one: an integer or NaN. */
  datatype Num = Int(v: int) | NaN

  function Abs(x: int): nat
  {
    if x < 0 then -x else x
  }

  /** JavaScript's `a % n` on integers: the remainder of truncating division,
      which takes the sign of the dividend (Dafny's `%` is Euclidean instead). */
  function Rem(a: int, n: int): (r: int)
    requires n != 0
    ensures Abs(r) < Abs(n)
    ensures a >= 0 ==> r >= 0
    ensures a <= 0 ==> r <= 0
    ensures a >= 0 && n > 0 ==> r == a % n
    ensures Abs(r) == Abs(a) % Abs(n)
  {
    if a >= 0 then a % Abs(n) else -((-a) % Abs(n))
  }

  /** The remainder keeps the dividend's sign: `-7 % 3` is -1 and `7 % -3` is 1, where
      the Euclidean remainder would give 2 and 1. */
  lemma RemSigns()
    ensures Rem(-7, 3) == -1 && Rem(7, -3) == 1 && Rem(-7, -3) == -1 && Rem(7, 3) == 1
  {
  }

  /** `a % n` on numbers: NaN when either side makes it undefined. */
  function Mod(a: Num, n: int): (r: Num)
    ensures r.NaN? <==> a.NaN? || n == 0
    ensures r.Int? && a.v >= 0 && n > 0 ==> 0 <= r.v < n
    ensures r.Int? ==> r.v == Rem(a.v, n)
  {
    if a.NaN? || n == 0 then NaN else Int(Rem(a.v, n))
  }

  predicate IsDigit(c: char)
  {
    '0' <= c <= '9'
  }

  predicate AllDigits(s: string)
  {
    forall i :: 0 <= i < |s| ==> IsDigit(s[i])
  }

  function DigitChar(d: int): (c: char)
    requires 0 <= d < 10
    ensures IsDigit(c)
  {
    (48 + d) as char
  }

  /** The decimal text of a non-negative integer, without leading zeros. */
  function NatToString(n: nat): (s: string)
    ensures |s| >= 1 && AllDigits(s)
    ensures s[0] == '0' ==> n == 0
    decreases n
  {
    if n < 10 then [DigitChar(n)] else NatToString(n / 10) + [DigitChar(n % 10)]
  }

  /** The decimal text of any integer: a minus sign before negative ones. */
  function IntToString(i: int): (s: string)
    ensures |s| >= 1 && (s[0] == '-' || IsDigit(s[0]))
    ensures s[0] == '-' <==> i < 0
    ensures i < 0 ==> s[1..] == NatToString(-i)
    ensures i >= 0 ==> AllDigits(s)
  {
    if i < 0 then "-" + NatToString(-i) else NatToString(i)
  }

  /** The value of a string of decimal digits (`parseInt` on digits only). */
  function DigitsValue(s: string): nat
    requires AllDigits(s)
  {
    if s == [] then 0 else DigitsValue(s[..|s| - 1]) * 10 + (s[|s| - 1] as int - 48)
  }

  /** Reading back the decimal text of `n` gives `n`. */
  lemma {:induction false} DigitsRoundTrip(n: nat)
    ensures DigitsValue(NatToString(n)) == n
  {
    if n >= 10 {
      var s := NatToString(n);
      assert s[..|s| - 1] == NatToString(n / 10);
      DigitsRoundTrip(n / 10);
    }
  }

  /** Different integers have different decimal texts. */
  lemma IntToStringInjective(i: int, j: int)
    requires IntToString(i) == IntToString(j)
    ensures i == j
  {
    if i < 0 {
      DigitsRoundTrip(-i);
      DigitsRoundTrip(-j);
    } else {
      DigitsRoundTrip(i);
      DigitsRoundTrip(j);
    }
  }

  /** The longest prefix of `s` made of digits, and what follows it. */
  function SplitDigits(s: string): (p: (string, string))
    ensures AllDigits(p.0) && p.0 + p.1 == s
    ensures p.1 == [] || !IsDigit(p.1[0])
  {
    if s != [] && IsDigit(s[0]) then
      var rest := SplitDigits(s[1..]);
      assert s == [s[0]] + (rest.0 + rest.1);
      ([s[0]] + rest.0, rest.1)
    else
      ([], s)
  }

  /** Splitting a digit string followed by a non-digit separates the two. */
  lemma {:induction false} SplitDigitsOf(d: string, t: string)
    requires AllDigits(d)
    requires t == [] || !IsDigit(t[0])
    ensures SplitDigits(d + t) == (d, t)
  {
    if d != [] {
      assert (d + t)[0] == d[0] && (d + t)[1..] == d[1..] + t;
      SplitDigitsOf(d[1..], t);
      assert [d[0]] + d[1..] == d;
    } else {
      assert d + t == t;
    }
  }
}

=== FILE: movies_route.dfy ===
/** The GET handler of app/api/movies/route.ts: it reads category, page, query and
    timeWindow from the query string, chooses a TMDB endpoint and its parameters, and
    answers with the upstream data, or with status 500 when the upstream call fails.
    The upstream call itself is outside the model: its outcome is a parameter. */
module MoviesRoute {
  import opened Types
  import opened Constants

  /** `searchParams.get(name) || fallback`: an absent or empty parameter falls back. */
  function OrDefault(param: Option<string>, fallback: string): (value: string)
    ensures param.Some? && param.value != "" ==> value == param.value
    ensures param.None? || param.value == "" ==> value == fallback
    ensures fallback != "" ==> value != ""
  {
    if param.Some? && param.value != "" then param.value else fallback
  }

  /** The query string after defaults: category `trending`, page `1`, time window
      `week`; the search query has no default. */
  datatype Params = Params(category: string, page: string, query: Option<string>, timeWindow: string)

  function ResolveParams(category: Option<string>, page: Option<string>, query: Option<string>,
                         timeWindow: Option<string>): (p: Params)
    ensures p.category != "" && p.page != "" && p.timeWindow != ""
    ensures p.query == query
    ensures p.category == OrDefault(category, Trending)
    ensures p.page == OrDefault(page, "1")
    ensures p.timeWindow == OrDefault(timeWindow, "week")
    ensures category.None? ==> p.category == Trending
    ensures page.None? ==> p.page == "1"
    ensures timeWindow.None? ==> p.timeWindow == "week"
  {
    Params(OrDefault(category, Trending), OrDefault(page, "1"), query, OrDefault(timeWindow, "week"))
  }

  /** A query is used only when present and non-empty (JavaScript truthiness). */
  predicate HasQuery(p: Params)
  {
    p.query.Some? && p.query.value != ""
  }

  /** The upstream request: endpoint URL and query parameters. */
  datatype Request = Request(url: string, params: map<string, string>)

  /** The endpoint and parameters for the resolved query string. A non-empty query wins
      over the category; trending uses the time window; the other four categories map
      to `/movie/<category>`; anything else falls back to the weekly trending list. The
      page is always forwarded, the query only for a search. */
  function Select(p: Params): (req: Request)
    ensures req.params == if HasQuery(p) then map["page" := p.page, "query" := p.query.value]
                          else map["page" := p.page]
    ensures HasQuery(p) ==> req.url == TmdbBaseUrl + "/search/movie"
    ensures !HasQuery(p) && p.category == Trending ==>
      req.url == TmdbBaseUrl + "/trending/movie/" + p.timeWindow
    ensures !HasQuery(p) && p.category in [Popular, TopRated, Upcoming, NowPlaying] ==>
      req.url == TmdbBaseUrl + "/movie/" + p.category
    ensures !HasQuery(p) && p.category !in MovieCategories ==>
      req.url == TmdbBaseUrl + "/trending/movie/week"
  {
    if HasQuery(p) then
      Request(TmdbBaseUrl + "/search/movie", map["page" := p.page, "query" := p.query.value])
    else if p.category == Trending then
      Request(TmdbBaseUrl + "/trending/movie/" + p.timeWindow, map["page" := p.page])
    else if p.category in [Popular, TopRated, Upcoming, NowPlaying] then
      Request(TmdbBaseUrl + "/movie/" + p.category, map["page" := p.page])
    else
      Request(TmdbBaseUrl + "/trending/movie/week", map["page" := p.page])
  }

  /** The handler's own selection: a `let` for the endpoint and the parameter object,
      set by an if/else chain over the category. */
  method SelectEndpoint(p: Params) returns (req: Request)
    ensures req == Select(p)
  {
    var url := "";
    var params := map["page" := p.page];
    if HasQuery(p) {
      url := TmdbBaseUrl + "/search/movie";
      params := params["query" := p.query.value];
    } else {
      if p.category == Trending {
        url := TmdbBaseUrl + "/trending/movie/" + p.timeWindow;
      } else if p.category == Popular {
        url := TmdbBaseUrl + "/movie/popular";
      } else if p.category == TopRated {
        url := TmdbBaseUrl + "/movie/top_rated";
      } else if p.category == Upcoming {
        url := TmdbBaseUrl + "/movie/upcoming";
      } else if p.category == NowPlaying {
        url := TmdbBaseUrl + "/movie/now_playing";
      } else {
        url := TmdbBaseUrl + "/trending/movie/week";
      }
    }
    req := Request(url, params);
  }

  /** A request for `?category=popular&page=3` asks for the popular list and forwards
      page 3; an empty category or page falls back to the defaults. */
  lemma SelectExamples()
    ensures Select(ResolveParams(Some(Popular), Some("3"), None, None))
      == Request(TmdbBaseUrl + "/movie/popular", map["page" := "3"])
    ensures Select(ResolveParams(Some(""), Some(""), Some(""), None))
      == Request(TmdbBaseUrl + "/trending/movie/week", map["page" := "1"])
  {
  }

  /** What the upstream call produced: its JSON data, or a failure (network error,
      non-2xx status, missing token). */
  datatype Upstream = Fetched(data: string) | FetchFailed

  datatype Body = Data(payload: string) | Error(error: string)

  datatype Response = Response(status: int, body: Body)

  const FetchFailedMessage: string := "Failed to fetch movies"

  /** The whole handler: defaults, endpoint selection, and the answer for the given
      upstream outcome. A failure is never passed through; it becomes status 500 with
      a fixed message. */
  method Get(category: Option<string>, page: Option<string>, query: Option<string>,
             timeWindow: Option<string>, outcome: Upstream)
    returns (req: Request, resp: Response)
    ensures req == Select(ResolveParams(category, page, query, timeWindow))
    ensures "page" in req.params && req.params["page"] != ""
    ensures page.None? ==> req.params["page"] == "1"
    ensures ("query" in req.params) <==> query.Some? && query.value != ""
    ensures query.None? && category.None? && timeWindow.None? ==>
      req.url == TmdbBaseUrl + "/trending/movie/week"
    ensures outcome.Fetched? ==> resp == Response(200, Data(outcome.data))
    ensures outcome.FetchFailed? ==> resp == Response(500, Error(FetchFailedMessage))
  {
    var p := ResolveParams(category, page, query, timeWindow);
    req := SelectEndpoint(p);
    if outcome.Fetched? {
      resp := Response(200, Data(outcome.data));
    } else {
      resp := Response(500, Error(FetchFailedMessage));
    }
  }
}

=== FILE: stable_sort.dfy ===
/** The behaviour of `Array.prototype.sort` with a comparator `(a, b) => rank(a) - rank(b)`,
    as sortMovies in app/lib/utils/index.ts uses it: ECMA-262 (section 23.1.3.30,
    Array.prototype.sort) requires the sort to be stable, so elements of equal rank keep
    their input order. A descending comparator `rank(b) - rank(a)` is the same sort on
    the negated rank.

    The specification is the functional insertion sort `StableSorted`; `InsertionSort`
    sorts an array in place and is proved to produce exactly that sequence. */
module StableSort {

  /** Elements appear in non-decreasing rank. */
  ghost predicate SortedBy<T>(s: seq<T>, rank: T -> real)
  {
    forall i, j :: 0 <= i < j < |s| ==> rank(s[i]) <= rank(s[j])
  }

  /** The elements of `s` whose rank is `k`, in their order in `s`. */
  function WithRank<T>(s: seq<T>, k: real, rank: T -> real): (r: seq<T>)
    ensures |r| <= |s|
  {
    if s == [] then []
    else WithRank(s[..|s| - 1], k, rank) + (if rank(s[|s| - 1]) == k then [s[|s| - 1]] else [])
  }

  /** Insert `x` after every element of rank at most `rank(x)`, scanning from the right. */
  function Insert<T>(s: seq<T>, x: T, rank: T -> real): (r: seq<T>)
    ensures |r| == |s| + 1
  {
    if s == [] || rank(s[|s| - 1]) <= rank(x) then s + [x]
    else Insert(s[..|s| - 1], x, rank) + [s[|s| - 1]]
  }

  /** Stable sort by rank, defined by inserting each element in turn. */
  function StableSorted<T>(s: seq<T>, rank: T -> real): (r: seq<T>)
    ensures |r| == |s|
  {
    if s == [] then [] else Insert(StableSorted(s[..|s| - 1], rank), s[|s| - 1], rank)
  }

  lemma {:induction false} WithRankAppend<T>(a: seq<T>, b: seq<T>, k: real, rank: T -> real)
    ensures WithRank(a + b, k, rank) == WithRank(a, k, rank) + WithRank(b, k, rank)
    decreases |b|
  {
    if b == [] {
      assert a + b == a;
    } else {
      var b' := b[..|b| - 1];
      assert (a + b)[..|a + b| - 1] == a + b';
      WithRankAppend(a, b', k, rank);
    }
  }

  lemma {:induction false} InsertPermutes<T>(s: seq<T>, x: T, rank: T -> real)
    ensures multiset(Insert(s, x, rank)) == multiset(s) + multiset{x}
    decreases |s|
  {
    if !(s == [] || rank(s[|s| - 1]) <= rank(x)) {
      var s' := s[..|s| - 1];
      InsertPermutes(s', x, rank);
      assert s == s' + [s[|s| - 1]];
    }
  }

  lemma {:induction false} InsertSorted<T>(s: seq<T>, x: T, rank: T -> real)
    requires SortedBy(s, rank)
    ensures SortedBy(Insert(s, x, rank), rank)
    decreases |s|
  {
    if !(s == [] || rank(s[|s| - 1]) <= rank(x)) {
      var s', last := s[..|s| - 1], s[|s| - 1];
      InsertSorted(s', x, rank);
      InsertPermutes(s', x, rank);
      var t := Insert(s', x, rank);
      forall i | 0 <= i < |t|
        ensures rank(t[i]) <= rank(last)
      {
        assert t[i] in multiset(t);
        assert t[i] in multiset(s') || t[i] == x;
        if t[i] != x {
          var j :| 0 <= j < |s'| && s'[j] == t[i];
          assert s[j] == t[i];
        }
      }
    }
  }

  /** Inserting keeps the relative order of each rank class, with `x` last in its class. */
  lemma {:induction false} InsertStable<T>(s: seq<T>, x: T, k: real, rank: T -> real)
    ensures WithRank(Insert(s, x, rank), k, rank)
         == WithRank(s, k, rank) + (if rank(x) == k then [x] else [])
    decreases |s|
  {
    if s == [] || rank(s[|s| - 1]) <= rank(x) {
      WithRankAppend(s, [x], k, rank);
    } else {
      var s', last := s[..|s| - 1], s[|s| - 1];
      InsertStable(s', x, k, rank);
      WithRankAppend(Insert(s', x, rank), [last], k, rank);
      assert s == s' + [last];
      WithRankAppend(s', [last], k, rank);
    }
  }

  /** StableSorted is a sorted permutation of its input that keeps the input order
      of elements of equal rank. */
  lemma {:induction false} StableSortedCorrect<T>(s: seq<T>, rank: T -> real)
    ensures multiset(StableSorted(s, rank)) == multiset(s)
    ensures SortedBy(StableSorted(s, rank), rank)
    ensures forall k :: WithRank(StableSorted(s, rank), k, rank) == WithRank(s, k, rank)
    decreases |s|
  {
    if s != [] {
      var s', last := s[..|s| - 1], s[|s| - 1];
      StableSortedCorrect(s', rank);
      InsertPermutes(StableSorted(s', rank), last, rank);
      InsertSorted(StableSorted(s', rank), last, rank);
      assert s == s' + [last];
      forall k ensures WithRank(StableSorted(s, rank), k, rank) == WithRank(s, k, rank) {
        InsertStable(StableSorted(s', rank), last, k, rank);
      }
    }
  }

  /** An already sorted sequence is left as it is. */
  lemma {:induction false} StableSortedOfSorted<T>(s: seq<T>, rank: T -> real)
    requires SortedBy(s, rank)
    ensures StableSorted(s, rank) == s
    decreases |s|
  {
    if s != [] {
      var s', last := s[..|s| - 1], s[|s| - 1];
      assert SortedBy(s', rank) by {
        forall i, j | 0 <= i < j < |s'| ensures rank(s'[i]) <= rank(s'[j]) {
          assert s'[i] == s[i] && s'[j] == s[j];
        }
      }
      StableSortedOfSorted(s', rank);
      assert s' == [] || rank(s'[|s'| - 1]) <= rank(last);
      assert s == s' + [last];
    }
  }

  /** Where the right-to-left scan of `Insert` stops: after position `j`, when every
      element from `j` on outranks `x` and the one before `j` (if any) does not. */
  lemma {:induction false} InsertAt<T>(s: seq<T>, x: T, j: nat, rank: T -> real)
    requires j <= |s|
    requires forall t :: j <= t < |s| ==> rank(s[t]) > rank(x)
    requires j == 0 || rank(s[j - 1]) <= rank(x)
    ensures Insert(s, x, rank) == s[..j] + [x] + s[j..]
    decreases |s| - j
  {
    if j == |s| {
      assert s[..j] == s;
    } else {
      var s' := s[..|s| - 1];
      InsertAt(s', x, j, rank);
      assert s'[..j] == s[..j];
      assert s'[j..] + [s[|s| - 1]] == s[j..];
    }
  }

  /** One step of the insertion sort: moves `a[i]` left past the elements of the
      sorted prefix `a[..i]` that outrank it. */
  method InsertLast<T>(a: array<T>, i: nat, rank: T -> real)
    requires i < a.Length
    modifies a
    ensures a[..i + 1] == Insert(old(a[..i]), old(a[i]), rank)
    ensures a[i + 1..] == old(a[i + 1..])
  {
    var x := a[i];
    ghost var done := a[..i];
    var j := i;
    while j > 0 && rank(a[j - 1]) > rank(x)
      invariant 0 <= j <= i
      invariant forall t :: 0 <= t < j ==> a[t] == done[t]
      invariant forall t :: j < t <= i ==> a[t] == done[t - 1]
      invariant forall t :: i < t < a.Length ==> a[t] == old(a[t])
      invariant forall t :: j <= t < i ==> rank(done[t]) > rank(x)
    {
      a[j] := a[j - 1];
      j := j - 1;
    }
    a[j] := x;
    InsertAt(done, x, j, rank);
    assert a[..i + 1] == done[..j] + [x] + done[j..];
  }

  /** Sorts `a` in place by rank, stably: each element in turn is moved left past
      the larger ones before it. */
  method InsertionSort<T>(a: array<T>, rank: T -> real)
    modifies a
    ensures a[..] == StableSorted(old(a[..]), rank)
  {
    ghost var input := a[..];
    var i := 0;
    while i < a.Length
      invariant 0 <= i <= a.Length
      invariant a[..i] == StableSorted(input[..i], rank)
      invariant a[i..] == input[i..]
    {
      InsertLast(a, i, rank);
      assert input[..i + 1][..i] == input[..i];
      i := i + 1;
    }
    assert input[..a.Length] == input;
  }
}

=== FILE: types.dfy ===
/** The record shapes of app/lib/types/index.ts that the modelled core consumes.
    Optional TypeScript properties (`x?: T`) become `Option<T>`. */
module Types {

  datatype Option<+T> = None | Some(value: T)

  /** A movie record as the catalog provider returns it, restricted to the fields
      that the watchlist, the formatting helpers and the sorter read. */
  datatype Movie = Movie(
    id: int,
    title: string,
    overview: string,
    posterPath: Option<string>,
    backdropPath: Option<string>,
    releaseDate: Option<string>,
    genreIds: Option<seq<int>>,
    voteAverage: Option<real>,
    popularity: Option<real>,
    runtime: Option<int>
  )

  /** A point-in-time snapshot of a movie saved to the watchlist. */
  datatype WatchlistItem = WatchlistItem(
    id: int,
    title: string,
    posterPath: Option<string>,
    voteAverage: Option<real>,
    releaseDate: Option<string>,
    addedAt: int
  )
}

=== FILE: utils.dfy ===
/** The formatting and ordering helpers of app/lib/utils/index.ts. */
module Utils {
  import opened Types
  import opened Constants
  import opened JsNumbers
  import StableSort

  // ---------------------------------------------------------------------------
  // getImageUrl

  /** The size variants getImageUrl accepts. */
  datatype SizeVariant = Small | Medium | Large | Original

  function VariantName(variant: SizeVariant): string
  {
    match variant
    case Small => "small"
    case Medium => "medium"
    case Large => "large"
    case Original => "original"
  }

  /** `sizeMap[variant] || sizeMap.medium`: the token for the variant, or the medium
      token when the family has none for it. */
  function SizeToken(sizeMap: map<string, string>, name: string): string
    requires "medium" in sizeMap
  {
    if name in sizeMap && sizeMap[name] != "" then sizeMap[name] else sizeMap["medium"]
  }

  /** An absent or empty path gives the family's placeholder; otherwise the URL is the
      image base, a slash, the family's token for the variant and the path. The
      fallback to the medium token never fires for the typed variants. */
  function GetImageUrl(path: Option<string>, kind: ImageKind, variant: SizeVariant): (url: string)
    ensures path.None? || path.value == "" ==> url == Placeholder(kind)
    ensures path.Some? && path.value != "" ==>
      VariantName(variant) in ImageSizes(kind) &&
      url == TmdbImageBaseUrl + "/" + ImageSizes(kind)[VariantName(variant)] + path.value
    ensures url == Placeholder(kind) <==> path.None? || path.value == ""
  {
    if path.None? || path.value == "" then
      if kind == Poster then PosterPlaceholder
      else if kind == Backdrop then BackdropPlaceholder
      else ProfilePlaceholder
    else
      ImageSizeFamilies(kind);
      var selected := SizeToken(ImageSizes(kind), VariantName(variant));
      var url := TmdbImageBaseUrl + "/" + selected + path.value;
      assert url[0] == 'h';
      url
  }

  // ---------------------------------------------------------------------------
  // formatRuntime

  /** "N/A" for an absent or zero runtime; otherwise whole hours and the remaining
      minutes, each part left out when it is zero. `Math.floor(m / 60)` is Dafny's
      `m / 60` (both round down for a positive divisor); `m % 60` is JavaScript's
      truncating remainder. */
  function FormatRuntime(minutes: Option<int>): (text: string)
    ensures text == "N/A" <==> minutes.None? || minutes.value == 0
  {
    if minutes.None? || minutes.value == 0 then "N/A"
    else
      var hours := minutes.value / 60;
      var mins := Rem(minutes.value, 60);
      var text :=
        if hours == 0 then IntToString(mins) + "m"
        else if mins == 0 then IntToString(hours) + "h"
        else IntToString(hours) + "h " + IntToString(mins) + "m";
      assert text[0] == (if hours == 0 then IntToString(mins)[0] else IntToString(hours)[0]);
      text
  }

  /** Reads a runtime text of the form "{h}h {m}m", "{h}h" or "{m}m" back into minutes. */
  function ParseRuntime(text: string): Option<int>
  {
    var (digits, rest) := SplitDigits(text);
    if digits == [] then None else ParseUnit(DigitsValue(digits), rest)
  }

  /** The part after the leading number: "m", "h", or "h " and a minutes part. */
  function ParseUnit(n: nat, rest: string): Option<int>
  {
    if rest == "m" then Some(n)
    else if rest == "h" then Some(n * 60)
    else if |rest| > 2 && rest[0] == 'h' && rest[1] == ' ' then
      var (mins, tail) := SplitDigits(rest[2..]);
      if mins != [] && tail == "m" then Some(n * 60 + DigitsValue(mins)) else None
    else None
  }

  /** "N/A" does not read as a runtime. */
  lemma ParseNotApplicable()
    ensures ParseRuntime("N/A") == None
  {
    assert SplitDigits("N/A").0 == [];
  }

  /** The text FormatRuntime gives a positive runtime, with both parts spelled out. */
  lemma FormatRuntimeParts(m: int)
    requires m > 0
    ensures var hours, mins := m / 60, m % 60;
      && m == hours * 60 + mins && 0 <= mins < 60 && hours >= 0
      && FormatRuntime(Some(m)) ==
           if hours == 0 then NatToString(mins) + "m"
           else if mins == 0 then NatToString(hours) + "h"
           else NatToString(hours) + "h " + NatToString(mins) + "m"
  {
    assert Rem(m, 60) == m % 60;
  }

  lemma ParseMinutesText(mins: nat)
    ensures ParseRuntime(NatToString(mins) + "m") == Some(mins)
  {
    SplitDigitsOf(NatToString(mins), "m");
    DigitsRoundTrip(mins);
  }

  lemma ParseHoursText(hours: nat)
    ensures ParseRuntime(NatToString(hours) + "h") == Some(hours * 60)
  {
    SplitDigitsOf(NatToString(hours), "h");
    DigitsRoundTrip(hours);
  }

  lemma JoinAssoc(a: string, b: string, c: string, d: string)
    ensures a + b + c + d == a + (b + c + d)
  {
  }

  /** A number followed by a unit part reads as that unit part applied to the number. */
  lemma ParseNumberThen(d: string, n: nat, rest: string, v: Option<int>, text: string)
    requires AllDigits(d) && d != [] && n == DigitsValue(d)
    requires rest == [] || !IsDigit(rest[0])
    requires ParseUnit(n, rest) == v
    requires text == d + rest
    ensures ParseRuntime(text) == v
  {
    SplitDigitsOf(d, rest);
  }

  lemma ParseHoursMinutesUnit(n: nat, r: string, rest: string)
    requires AllDigits(r) && r != []
    requires rest == "h " + r + "m"
    ensures ParseUnit(n, rest) == Some(n * 60 + DigitsValue(r))
  {
    assert rest[2..] == r + "m";
    SplitDigitsOf(r, "m");
  }

  lemma ParseHoursMinutesDigits(h: string, r: string, text: string)
    requires AllDigits(h) && h != [] && AllDigits(r) && r != []
    requires text == h + "h " + r + "m"
    ensures ParseRuntime(text) == Some(DigitsValue(h) * 60 + DigitsValue(r))
  {
    var rest, n := "h " + r + "m", DigitsValue(h);
    assert text == h + rest by { JoinAssoc(h, "h ", r, "m"); }
    assert !IsDigit(rest[0]);
    ParseHoursMinutesUnit(n, r, rest);
    ParseNumberThen(h, n, rest, Some(n * 60 + DigitsValue(r)), text);
  }

  lemma ParseBothText(hours: nat, mins: nat, h: string, r: string, text: string)
    requires h == NatToString(hours) && r == NatToString(mins)
    requires text == h + "h " + r + "m"
    ensures ParseRuntime(text) == Some(hours * 60 + mins)
  {
    DigitsRoundTrip(hours);
    DigitsRoundTrip(mins);
    ParseHoursMinutesDigits(h, r, text);
  }

  /** A positive runtime is recovered exactly from its text, and "N/A" reads as absent:
      the hours and minutes shown always add up to the runtime. */
  lemma FormatRuntimeRoundTrip(m: int)
    requires m > 0
    ensures ParseRuntime(FormatRuntime(Some(m))) == Some(m)
    ensures ParseRuntime(FormatRuntime(None)) == None
  {
    ParseNotApplicable();
    FormatRuntimeParts(m);
    var hours, mins := m / 60, m % 60;
    if hours == 0 {
      ParseMinutesText(mins);
    } else if mins == 0 {
      ParseHoursText(hours);
    } else {
      ParseBothText(hours, mins, NatToString(hours), NatToString(mins), FormatRuntime(Some(m)));
    }
  }


  // ---------------------------------------------------------------------------
  // getGenreNames

  /** `ids.map(id => GENRES[id]).filter(Boolean)`: the names of the known ids, in order. */
  function KnownGenreNames(ids: seq<int>): (names: seq<string>)
    ensures |names| <= |ids|
    ensures forall n :: n in names ==> n in Genres.Values
  {
    if ids == [] then []
    else
      (if ids[0] in Genres && Genres[ids[0]] != "" then [Genres[ids[0]]] else [])
      + KnownGenreNames(ids[1..])
  }

  /** An id that GENRES knows gives its name; any other id is dropped. Together with
      GenreNamesAppend this fixes the names of every list. */
  lemma GenreNamesSingle(id: int)
    ensures KnownGenreNames([id]) == if id in Genres then [Genres[id]] else []
  {
    assert [id][1..] == [];
    if id in Genres {
      assert Genres[id] != "";
    }
  }

  /** An absent or empty id list gives no names. */
  function GetGenreNames(genreIds: Option<seq<int>>): (names: seq<string>)
    ensures genreIds.None? || genreIds.value == [] ==> names == []
    ensures genreIds.Some? ==> names == KnownGenreNames(genreIds.value)
  {
    if genreIds.None? || |genreIds.value| == 0 then [] else KnownGenreNames(genreIds.value)
  }

  /** The names follow the input order: the names of a concatenation are the
      concatenation of the names. */
  lemma {:induction false} GenreNamesAppend(a: seq<int>, b: seq<int>)
    ensures KnownGenreNames(a + b) == KnownGenreNames(a) + KnownGenreNames(b)
  {
    if a == [] {
      assert a + b == b;
    } else {
      assert (a + b)[0] == a[0] && (a + b)[1..] == a[1..] + b;
      GenreNamesAppend(a[1..], b);
    }
  }

  /** When every id is a known genre, nothing is dropped and each name is the one GENRES
      gives the id at the same position. */
  lemma {:induction false} GenreNamesAllKnown(ids: seq<int>)
    requires forall i :: 0 <= i < |ids| ==> ids[i] in Genres
    ensures |KnownGenreNames(ids)| == |ids|
    ensures forall i :: 0 <= i < |ids| ==> KnownGenreNames(ids)[i] == Genres[ids[i]]
  {
    if ids != [] {
      assert Genres[ids[0]] != "";
      GenreNamesAllKnown(ids[1..]);
    }
  }

  // ---------------------------------------------------------------------------
  // getRatingColor

  /** The falsy check, then the tiers from best to worst. */
  function GetRatingColor(rating: Option<real>): (color: string)
    ensures rating.None? || rating.value == 0.0 ==> color == Poor.color
    ensures color in [Excellent.color, Good.color, Average.color, Poor.color]
  {
    if rating.None? || rating.value == 0.0 then Poor.color
    else if rating.value >= Excellent.min then Excellent.color
    else if rating.value >= Good.min then Good.color
    else if rating.value >= Average.min then Average.color
    else Poor.color
  }

  /** The first tier, from index `i` of the table on, whose minimum the rating reaches;
      the last tier (poor) when none does. */
  function ScanTiers(v: real, i: nat): (j: nat)
    requires i < |RatingTiers|
    ensures i <= j < |RatingTiers|
    ensures j < |RatingTiers| - 1 ==> RatingTiers[j].min <= v
    ensures forall t :: i <= t < j ==> v < RatingTiers[t].min
    decreases |RatingTiers| - i
  {
    if i == |RatingTiers| - 1 || RatingTiers[i].min <= v then i else ScanTiers(v, i + 1)
  }

  /** The tier index of a rating, reading RATING_COLORS as a table. */
  function RatingTierIndex(rating: Option<real>): (i: nat)
    ensures i < |RatingTiers|
  {
    if rating.None? || rating.value == 0.0 then |RatingTiers| - 1 else ScanTiers(rating.value, 0)
  }

  /** getRatingColor's if-chain picks the colour of the tier the table scan picks. */
  lemma RatingColorIsTableTier(rating: Option<real>)
    ensures GetRatingColor(rating) == RatingTiers[RatingTierIndex(rating)].color
  {
    if rating.Some? && rating.value != 0.0 {
      var v := rating.value;
      if v < Excellent.min {
        assert ScanTiers(v, 0) == ScanTiers(v, 1);
        if v < Good.min {
          assert ScanTiers(v, 1) == ScanTiers(v, 2);
        }
      }
    }
  }

  /** A higher rating never gets a worse tier (a smaller index is a better tier). */
  lemma RatingTierMonotone(a: real, b: real)
    requires a <= b
    ensures RatingTierIndex(Some(b)) <= RatingTierIndex(Some(a))
  {
    RatingTiersOrdered();
  }

  // ---------------------------------------------------------------------------
  // truncateText

  function MaxInt(a: int, b: int): int
  {
    if a < b then b else a
  }

  /** An absent or empty text gives ""; a text that fits is returned unchanged; a
      longer one is cut to its first maxLength characters (none when maxLength is
      negative, as `substring` clamps) followed by "...". */
  function TruncateText(text: Option<string>, maxLength: int): (r: string)
    ensures text.None? || text.value == "" ==> r == ""
    ensures text.Some? && |text.value| <= maxLength ==> r == text.value
    ensures text.Some? && text.value != "" && |text.value| > maxLength ==>
      |r| == MaxInt(maxLength, 0) + 3 && r[|r| - 3..] == "..." && r[..|r| - 3] <= text.value
  {
    if text.None? || text.value == "" then ""
    else if |text.value| <= maxLength then text.value
    else text.value[..MaxInt(maxLength, 0)] + "..."
  }

  // ---------------------------------------------------------------------------
  // getYouTubeEmbedUrl, getYouTubeThumbnail

  const YouTubeEmbedPrefix: string := "https://www.youtube.com/embed/"
  const YouTubeEmbedQuery: string := "?autoplay=1&rel=0"
  const YouTubeThumbnailPrefix: string := "https://img.youtube.com/vi/"

  /** The embed URL holds the video key between the fixed prefix and query. */
  function GetYouTubeEmbedUrl(videoKey: string): (url: string)
    ensures |url| == |YouTubeEmbedPrefix| + |videoKey| + |YouTubeEmbedQuery|
    ensures url[..|YouTubeEmbedPrefix|] == YouTubeEmbedPrefix
    ensures url[|YouTubeEmbedPrefix|..|YouTubeEmbedPrefix| + |videoKey|] == videoKey
    ensures url[|YouTubeEmbedPrefix| + |videoKey|..] == YouTubeEmbedQuery
  {
    YouTubeEmbedPrefix + videoKey + YouTubeEmbedQuery
  }

  datatype ThumbnailQuality = DefaultQuality | HighQuality | MaxResolution

  /** The quality map of getYouTubeThumbnail. */
  function QualityFile(quality: ThumbnailQuality): (name: string)
    ensures forall i :: 0 <= i < |name| ==> name[i] != '/'
  {
    match quality
    case DefaultQuality => "default"
    case HighQuality => "hqdefault"
    case MaxResolution => "maxresdefault"
  }

  function GetYouTubeThumbnail(videoKey: string, quality: ThumbnailQuality): (url: string)
    ensures |url| == |YouTubeThumbnailPrefix| + |videoKey| + 1 + |QualityFile(quality)| + 4
    ensures url[..|YouTubeThumbnailPrefix|] == YouTubeThumbnailPrefix
    ensures url[|url| - 4..] == ".jpg"
    ensures url[|YouTubeThumbnailPrefix|..|YouTubeThumbnailPrefix| + |videoKey|] == videoKey
    ensures url[|YouTubeThumbnailPrefix| + |videoKey|] == '/'
    ensures url[|YouTubeThumbnailPrefix| + |videoKey| + 1..|url| - 4] == QualityFile(quality)
  {
    YouTubeThumbnailPrefix + videoKey + "/" + QualityFile(quality) + ".jpg"
  }

  /** Different videos have different embed URLs. */
  lemma EmbedUrlInjective(k1: string, k2: string)
    requires GetYouTubeEmbedUrl(k1) == GetYouTubeEmbedUrl(k2)
    ensures k1 == k2
  {
  }

  /** Different (video, quality) pairs have different thumbnail URLs, even though a
      video key may itself contain a slash. */
  lemma ThumbnailUrlInjective(k1: string, q1: ThumbnailQuality, k2: string, q2: ThumbnailQuality)
    requires GetYouTubeThumbnail(k1, q1) == GetYouTubeThumbnail(k2, q2)
    ensures k1 == k2 && q1 == q2
  {
    var u := GetYouTubeThumbnail(k1, q1);
    var f1, f2 := QualityFile(q1), QualityFile(q2);
    var n := |u|;
    var p := |YouTubeThumbnailPrefix|;
    assert u == YouTubeThumbnailPrefix + k1 + "/" + f1 + ".jpg";
    assert u == YouTubeThumbnailPrefix + k2 + "/" + f2 + ".jpg";
    assert u[n - 4 - |f1|..n - 4] == f1 && u[n - 5 - |f1|] == '/';
    assert u[n - 4 - |f2|..n - 4] == f2 && u[n - 5 - |f2|] == '/';
    if |f1| < |f2| {
      assert false;
    } else if |f2| < |f1| {
      assert false;
    }
    assert f1 == f2;
    assert u[p..n - 5 - |f1|] == k1;
    assert u[p..n - 5 - |f2|] == k2;
  }

  // ---------------------------------------------------------------------------
  // isInWatchlist (the helper over a list of ids)

  /** `watchlist.includes(movieId)`. */
  function IsInWatchlist(movieId: int, watchlist: seq<int>): (found: bool)
    ensures found <==> exists i :: 0 <= i < |watchlist| && watchlist[i] == movieId
  {
    if watchlist == [] then false
    else watchlist[0] == movieId || IsInWatchlist(movieId, watchlist[1..])
  }

  // ---------------------------------------------------------------------------
  // clamp

  /** `Math.min(Math.max(value, min), max)`. */
  function Clamp(value: real, min: real, max: real): (r: real)
    ensures min <= max ==> min <= r <= max
    ensures min <= value <= max ==> r == value
    ensures max < min ==> r == max
    ensures value < min <= max ==> r == min
    ensures max <= value ==> r == max
    ensures r == value || r == min || r == max
  {
    var low := if value < min then min else value;
    if low < max then low else max
  }

  // ---------------------------------------------------------------------------
  // getRelativeTime

  datatype TimeUnit = TimeUnit(name: string, seconds: int)

  /** The interval table, largest unit first. */
  const Intervals: seq<TimeUnit> := [
    TimeUnit("year", 31536000),
    TimeUnit("month", 2592000),
    TimeUnit("week", 604800),
    TimeUnit("day", 86400),
    TimeUnit("hour", 3600),
    TimeUnit("minute", 60)
  ]

  /** "{count} {unit}" with a plural "s" when count exceeds one, then " ago". */
  function AgoPhrase(count: int, unit: string): string
  {
    IntToString(count) + " " + unit + (if count > 1 then "s" else "") + " ago"
  }

  /** Unit `k` is the largest unit of the table that fits into `diff` at least once. */
  predicate LargestFittingUnit(diff: int, k: int)
    requires 0 <= k < |Intervals|
  {
    Intervals[k].seconds <= diff && forall j :: 0 <= j < k ==> diff < Intervals[j].seconds
  }

  /** For a difference of `diffInSeconds` seconds: the count of the largest unit that
      fits, or "just now" when not even a minute has passed (including a negative
      difference, a date in the future). */
  method GetRelativeTime(diffInSeconds: int) returns (text: string)
    ensures diffInSeconds < 60 ==> text == "just now"
    ensures diffInSeconds >= 60 ==>
      exists k :: (0 <= k < |Intervals| && LargestFittingUnit(diffInSeconds, k) &&
                   text == AgoPhrase(diffInSeconds / Intervals[k].seconds, Intervals[k].name))
  {
    var i := 0;
    while i < |Intervals|
      invariant 0 <= i <= |Intervals|
      invariant forall j :: 0 <= j < i ==> diffInSeconds < Intervals[j].seconds
    {
      var interval := diffInSeconds / Intervals[i].seconds;
      if interval >= 1 {
        assert LargestFittingUnit(diffInSeconds, i);
        return AgoPhrase(interval, Intervals[i].name);
      }
      i := i + 1;
    }
    assert diffInSeconds < Intervals[|Intervals| - 1].seconds == 60;
    return "just now";
  }

  // ---------------------------------------------------------------------------
  // sortMovies

  datatype SortField = Popularity | VoteAverage | ReleaseDate
  datatype SortOrder = SortOrder(field: SortField, descending: bool)

  /** The sortBy values the switch recognises. */
  function ParseSortBy(sortBy: string): Option<SortOrder>
  {
    if sortBy == "popularity.desc" then Some(SortOrder(Popularity, true))
    else if sortBy == "popularity.asc" then Some(SortOrder(Popularity, false))
    else if sortBy == "vote_average.desc" then Some(SortOrder(VoteAverage, true))
    else if sortBy == "vote_average.asc" then Some(SortOrder(VoteAverage, false))
    else if sortBy == "release_date.desc" then Some(SortOrder(ReleaseDate, true))
    else if sortBy == "release_date.asc" then Some(SortOrder(ReleaseDate, false))
    else None
  }

  /** SORT_OPTIONS offers exactly the sortBy values that sortMovies recognises. */
  lemma SortOptionsRecognised(sortBy: string)
    ensures ParseSortBy(sortBy).Some? <==>
      exists i :: 0 <= i < |SortOptions| && SortOptions[i].value == sortBy
  {
    if ParseSortBy(sortBy).Some? {
      if sortBy == "popularity.desc" { assert SortOptions[0].value == sortBy; }
      else if sortBy == "popularity.asc" { assert SortOptions[1].value == sortBy; }
      else if sortBy == "vote_average.desc" { assert SortOptions[2].value == sortBy; }
      else if sortBy == "vote_average.asc" { assert SortOptions[3].value == sortBy; }
      else if sortBy == "release_date.desc" { assert SortOptions[4].value == sortBy; }
      else { assert SortOptions[5].value == sortBy; }
    }
  }

  /** The comparator's key for one movie: a missing value counts as 0 (`x || 0`), and
      a release date is read as its timestamp (`timeOf` stands for
      `new Date(d).getTime()`); a missing or empty date counts as 0. */
  function SortKey(movie: Movie, field: SortField, timeOf: string -> int): real
  {
    match field
    case Popularity => if movie.popularity.Some? then movie.popularity.value else 0.0
    case VoteAverage => if movie.voteAverage.Some? then movie.voteAverage.value else 0.0
    case ReleaseDate =>
      if movie.releaseDate.Some? && movie.releaseDate.value != "" then timeOf(movie.releaseDate.value) as real
      else 0.0
  }

  /** The rank the sort orders by ascending: the key, negated for a descending order. */
  function Rank(order: SortOrder, timeOf: string -> int): Movie -> real
  {
    movie => if order.descending then -SortKey(movie, order.field, timeOf) else SortKey(movie, order.field, timeOf)
  }

  /** Copies the movies and, for a recognised sortBy, sorts the copy stably by the key in
      the requested direction; an unrecognised sortBy returns the copy unsorted. The
      result is always a permutation of the input, and movies with equal keys keep their
      input order. */
  method SortMovies(movies: seq<Movie>, sortBy: string, timeOf: string -> int) returns (sorted: seq<Movie>)
    ensures multiset(sorted) == multiset(movies)
    ensures ParseSortBy(sortBy).None? ==> sorted == movies
    ensures ParseSortBy(sortBy).Some? ==>
      var order := ParseSortBy(sortBy).value;
      && sorted == StableSort.StableSorted(movies, Rank(order, timeOf))
      && (forall i, j :: 0 <= i < j < |sorted| ==>
            if order.descending then SortKey(sorted[i], order.field, timeOf) >= SortKey(sorted[j], order.field, timeOf)
            else SortKey(sorted[i], order.field, timeOf) <= SortKey(sorted[j], order.field, timeOf))
      && (forall k :: StableSort.WithRank(sorted, k, Rank(order, timeOf))
                  == StableSort.WithRank(movies, k, Rank(order, timeOf)))
  {
    var copy := new Movie[|movies|](i requires 0 <= i < |movies| => movies[i]);
    assert copy[..] == movies;
    var parsed := ParseSortBy(sortBy);
    if parsed.Some? {
      var rank := Rank(parsed.value, timeOf);
      StableSort.InsertionSort(copy, rank);
      StableSort.StableSortedCorrect(movies, rank);
    }
    sorted := copy[..];
  }
}

=== FILE: watchlist_store.dfy ===
/** The watchlist store of app/lib/store/watchlistStore.ts: an ordered collection of
    movie snapshots, newest first, with at most one entry per movie id. The store object
    holds the collection in its `items` field; the mutating operations replace it. The
    functions below state what each operation makes of the collection, and the lemmas
    state the store's promises about them. */
module WatchlistStore {
  import opened Types

  /** The snapshot addToWatchlist builds; `now` stands for `Date.now()`. */
  function Snapshot(movie: Movie, now: int): (item: WatchlistItem)
    ensures item.id == movie.id && item.addedAt == now
    ensures item.title == movie.title && item.posterPath == movie.posterPath
    ensures item.voteAverage == movie.voteAverage && item.releaseDate == movie.releaseDate
  {
    WatchlistItem(movie.id, movie.title, movie.posterPath, movie.voteAverage, movie.releaseDate, now)
  }

  /** The movie the watchlist page rebuilds from an item to render its card. Taking the
      snapshot of that movie at the item's own time gives back the item. */
  function MovieOfItem(item: WatchlistItem): (movie: Movie)
    ensures Snapshot(movie, item.addedAt) == item
    ensures movie.overview == "" && movie.genreIds == Some([])
  {
    Movie(item.id, item.title, "", item.posterPath, None, item.releaseDate, Some([]),
          item.voteAverage, None, None)
  }

  /** `items.some(item => item.id === id)`. */
  predicate Has(items: seq<WatchlistItem>, id: int)
  {
    exists i :: 0 <= i < |items| && items[i].id == id
  }

  /** No two entries share an id. */
  predicate DistinctIds(items: seq<WatchlistItem>)
  {
    forall i, j :: 0 <= i < j < |items| ==> items[i].id != items[j].id
  }

  /** The ids present. */
  function Ids(items: seq<WatchlistItem>): (ids: set<int>)
    ensures forall id :: id in ids <==> Has(items, id)
  {
    if items == [] then {}
    else
      assert forall id :: Has(items, id) <==> items[0].id == id || Has(items[1..], id) by {
        forall id | Has(items, id) ensures items[0].id == id || Has(items[1..], id) {
          var i :| 0 <= i < |items| && items[i].id == id;
          if i > 0 { assert items[1..][i - 1].id == id; }
        }
        forall id | Has(items[1..], id) ensures Has(items, id) {
          var i :| 0 <= i < |items[1..]| && items[1..][i].id == id;
          assert items[i + 1].id == id;
        }
      }
      {items[0].id} + Ids(items[1..])
  }

  /** The collection after addToWatchlist: unchanged when the id is already present,
      otherwise the new snapshot followed by the old entries. */
  function Added(items: seq<WatchlistItem>, movie: Movie, now: int): (r: seq<WatchlistItem>)
    ensures Has(r, movie.id)
    ensures forall id :: id != movie.id ==> (Has(r, id) <==> Has(items, id))
    ensures DistinctIds(items) ==> DistinctIds(r)
    ensures |r| == if Has(items, movie.id) then |items| else |items| + 1
  {
    if Has(items, movie.id) then items
    else
      var r := [Snapshot(movie, now)] + items;
      assert r[0].id == movie.id;
      assert forall id :: Has(r, id) <==> id == movie.id || Has(items, id) by {
        forall id | Has(items, id) ensures Has(r, id) {
          var i :| 0 <= i < |items| && items[i].id == id;
          assert r[i + 1].id == id;
        }
      }
      r
  }

  /** `items.filter(item => item.id !== id)`. */
  function Without(items: seq<WatchlistItem>, id: int): (r: seq<WatchlistItem>)
    ensures |r| <= |items|
  {
    if items == [] then []
    else (if items[0].id != id then [items[0]] else []) + Without(items[1..], id)
  }

  /** The entries kept are exactly those with a different id. */
  lemma {:induction false} WithoutElements(items: seq<WatchlistItem>, id: int)
    ensures forall x :: x in Without(items, id) <==> x in items && x.id != id
  {
    if items != [] {
      WithoutElements(items[1..], id);
      assert items == [items[0]] + items[1..];
    }
  }

  lemma HasIffIn(items: seq<WatchlistItem>, id: int)
    ensures Has(items, id) <==> exists x :: x in items && x.id == id
  {
    if Has(items, id) {
      var i :| 0 <= i < |items| && items[i].id == id;
      assert items[i] in items;
    }
  }

  /** After removing id k, no entry has id k and every other id is present exactly when
      it was before; ids stay distinct. */
  lemma WithoutMembership(items: seq<WatchlistItem>, k: int)
    ensures !Has(Without(items, k), k)
    ensures forall id :: id != k ==> (Has(Without(items, k), id) <==> Has(items, id))
    ensures DistinctIds(items) ==> DistinctIds(Without(items, k))
  {
    var r := Without(items, k);
    WithoutElements(items, k);
    HasIffIn(r, k);
    forall id | id != k
      ensures Has(r, id) <==> Has(items, id)
    {
      HasIffIn(r, id);
      HasIffIn(items, id);
    }
    if DistinctIds(items) {
      WithoutDistinct(items, k);
    }
  }

  /** Below the head of a collection with distinct ids, the ids are still distinct and
      none is the head's. */
  lemma TailDistinct(items: seq<WatchlistItem>)
    requires DistinctIds(items) && items != []
    ensures DistinctIds(items[1..])
    ensures forall x :: x in items[1..] ==> x.id != items[0].id
  {
    var tail := items[1..];
    forall i, j | 0 <= i < j < |tail| ensures tail[i].id != tail[j].id {
      assert tail[i] == items[i + 1] && tail[j] == items[j + 1];
    }
    forall x | x in tail ensures x.id != items[0].id {
      var j :| 0 <= j < |tail| && tail[j] == x;
      assert items[j + 1] == x;
    }
  }

  lemma {:induction false} WithoutDistinct(items: seq<WatchlistItem>, k: int)
    requires DistinctIds(items)
    ensures DistinctIds(Without(items, k))
  {
    if items != [] {
      var tail := items[1..];
      TailDistinct(items);
      WithoutDistinct(tail, k);
      var rest := Without(tail, k);
      WithoutElements(tail, k);
      if items[0].id != k {
        var r := [items[0]] + rest;
        assert Without(items, k) == r;
        forall i, j | 0 <= i < j < |r| ensures r[i].id != r[j].id {
          if i == 0 {
            assert r[j] == rest[j - 1];
            assert r[j] in tail;
          } else {
            assert r[i] == rest[i - 1] && r[j] == rest[j - 1];
          }
        }
      } else {
        assert Without(items, k) == rest;
      }
    }
  }

  /** Removing an id that is absent leaves the collection unchanged. */
  lemma {:induction false} WithoutAbsent(items: seq<WatchlistItem>, k: int)
    requires !Has(items, k)
    ensures Without(items, k) == items
  {
    if items != [] {
      assert items[0].id != k;
      assert !Has(items[1..], k);
      WithoutAbsent(items[1..], k);
      assert [items[0]] + items[1..] == items;
    }
  }

  /** Filtering distributes over concatenation. */
  lemma {:induction false} WithoutAppend(a: seq<WatchlistItem>, b: seq<WatchlistItem>, k: int)
    ensures Without(a + b, k) == Without(a, k) + Without(b, k)
  {
    if a == [] {
      assert a + b == b;
    } else {
      assert (a + b)[0] == a[0] && (a + b)[1..] == a[1..] + b;
      WithoutAppend(a[1..], b, k);
    }
  }

  /** With distinct ids, neither the entries before position i nor those after it have
      the id of entry i. */
  lemma OthersLackId(items: seq<WatchlistItem>, i: nat)
    requires DistinctIds(items) && i < |items|
    ensures !Has(items[..i], items[i].id) && !Has(items[i + 1..], items[i].id)
  {
    var before, after := items[..i], items[i + 1..];
    forall j | 0 <= j < |before| ensures before[j].id != items[i].id {
      assert before[j] == items[j];
    }
    forall j | 0 <= j < |after| ensures after[j].id != items[i].id {
      assert after[j] == items[i + 1 + j];
    }
  }

  /** Removing the id of an entry that no other entry has drops just that entry. */
  lemma WithoutSplice(before: seq<WatchlistItem>, x: WatchlistItem, after: seq<WatchlistItem>)
    requires !Has(before, x.id) && !Has(after, x.id)
    ensures Without(before + [x] + after, x.id) == before + after
  {
    var k := x.id;
    calc {
      Without(before + [x] + after, k);
      { WithoutAppend(before + [x], after, k); }
      Without(before + [x], k) + Without(after, k);
      { WithoutAppend(before, [x], k); }
      Without(before, k) + Without([x], k) + Without(after, k);
      { assert Without([x], k) == []; }
      Without(before, k) + Without(after, k);
      { WithoutAbsent(before, k); WithoutAbsent(after, k); }
      before + after;
    }
  }

  /** With distinct ids, removing a present id drops exactly its one entry and keeps the
      others in their original order. */
  lemma WithoutPresent(items: seq<WatchlistItem>, i: nat)
    requires DistinctIds(items)
    requires i < |items|
    ensures Without(items, items[i].id) == items[..i] + items[i + 1..]
  {
    OthersLackId(items, i);
    assert items == items[..i] + [items[i]] + items[i + 1..];
    WithoutSplice(items[..i], items[i], items[i + 1..]);
  }

  /** Removing twice is removing once. */
  lemma WithoutIdempotent(items: seq<WatchlistItem>, k: int)
    ensures Without(Without(items, k), k) == Without(items, k)
  {
    WithoutMembership(items, k);
    WithoutAbsent(Without(items, k), k);
  }

  /** A second add of the same movie changes nothing, whatever the time. */
  lemma AddIdempotent(items: seq<WatchlistItem>, movie: Movie, t1: int, t2: int)
    ensures Added(Added(items, movie, t1), movie, t2) == Added(items, movie, t1)
  {
  }

  /** Adding an id already present neither replaces nor moves its entry. */
  lemma AddPresent(items: seq<WatchlistItem>, movie: Movie, now: int)
    requires Has(items, movie.id)
    ensures Added(items, movie, now) == items
  {
  }

  /** Adding movies with distinct ids a, b, c to an empty watchlist gives [c, b, a]. */
  lemma AddOrder(a: Movie, b: Movie, c: Movie, ta: int, tb: int, tc: int)
    requires a.id != b.id && b.id != c.id && a.id != c.id
    ensures Added(Added(Added([], a, ta), b, tb), c, tc)
         == [Snapshot(c, tc), Snapshot(b, tb), Snapshot(a, ta)]
  {
    var s1 := Added([], a, ta);
    assert s1 == [Snapshot(a, ta)];
    var s2 := Added(s1, b, tb);
    assert !Has(s1, b.id);
    assert s2 == [Snapshot(b, tb), Snapshot(a, ta)];
    assert !Has(s2, c.id);
  }

  /** With distinct ids the number of entries is the number of distinct ids. */
  lemma {:induction false} CountIsDistinctIds(items: seq<WatchlistItem>)
    requires DistinctIds(items)
    ensures |Ids(items)| == |items|
  {
    if items != [] {
      var tail := items[1..];
      TailDistinct(items);
      CountIsDistinctIds(tail);
      assert !Has(tail, items[0].id) by {
        forall j | 0 <= j < |tail| ensures tail[j].id != items[0].id {
          assert tail[j] in tail;
        }
      }
    }
  }

  /** The store object. `Valid` is the data invariant every operation keeps. */
  class Watchlist {
    var items: seq<WatchlistItem>

    ghost predicate Valid()
      reads this
    {
      DistinctIds(items)
    }

    /** The store starts empty. */
    constructor ()
      ensures Valid() && items == []
    {
      items := [];
    }

    /** addToWatchlist: prepend a snapshot unless the id is already present. */
    method AddToWatchlist(movie: Movie, now: int)
      requires Valid()
      modifies this
      ensures Valid()
      ensures items == Added(old(items), movie, now)
      ensures !old(Has(items, movie.id)) ==> items == [Snapshot(movie, now)] + old(items)
    {
      if Has(items, movie.id) {
        return;
      }
      var newItem := Snapshot(movie, now);
      items := [newItem] + items;
    }

    /** removeFromWatchlist: keep the entries whose id differs. */
    method RemoveFromWatchlist(movieId: int)
      requires Valid()
      modifies this
      ensures Valid()
      ensures items == Without(old(items), movieId)
      ensures !Has(items, movieId)
    {
      WithoutMembership(items, movieId);
      items := Without(items, movieId);
    }

    /** isInWatchlist: a read-only query. */
    method IsInWatchlist(movieId: int) returns (found: bool)
      ensures found <==> exists i :: 0 <= i < |items| && items[i].id == movieId
      ensures found <==> movieId in Ids(items)
    {
      found := Has(items, movieId);
    }

    /** clearWatchlist: afterwards nothing is a member. */
    method ClearWatchlist()
      modifies this
      ensures Valid()
      ensures items == []
      ensures forall id :: !Has(items, id)
    {
      items := [];
    }

    /** getWatchlistCount: the number of entries, which is the number of distinct ids. */
    method GetWatchlistCount() returns (count: nat)
      requires Valid()
      ensures count == |items|
      ensures count == |Ids(items)|
    {
      CountIsDistinctIds(items);
      count := |items|;
    }

    /** The toggle that WatchlistButton and MovieCard attach to their buttons: remove the
        movie if it is present, add it otherwise (its snapshot then goes first). Membership
        of its id flips; the entries with other ids are exactly what they were. */
    method Toggle(movie: Movie, now: int)
      requires Valid()
      modifies this
      ensures Valid()
      ensures Has(items, movie.id) == !old(Has(items, movie.id))
      ensures Without(items, movie.id) == Without(old(items), movie.id)
      ensures items == if old(Has(items, movie.id)) then Without(old(items), movie.id)
                       else Added(old(items), movie, now)
    {
      var inWatchlist := IsInWatchlist(movie.id);
      if inWatchlist {
        WithoutIdempotent(items, movie.id);
        RemoveFromWatchlist(movie.id);
      } else {
        AddToWatchlist(movie, now);
        assert Without(items, movie.id) == Without(old(items), movie.id) by {
          assert items == [Snapshot(movie, now)] + old(items);
          assert items[1..] == old(items);
        }
      }
    }
  }

  /** The scenario of a duplicate add: adding movies 1, 2 and then 1 again leaves two
      entries, newest first. */
  method DuplicateAddScenario(m1: Movie, m2: Movie)
    requires m1.id == 1 && m2.id == 2
  {
    var store := new Watchlist();
    store.AddToWatchlist(m1, 100);
    store.AddToWatchlist(m2, 200);
    store.AddToWatchlist(m1, 300);
    assert store.items == [Snapshot(m2, 200), Snapshot(m1, 100)];
    var count := store.GetWatchlistCount();
    assert count == 2;
    store.RemoveFromWatchlist(99);
    var found := store.IsInWatchlist(99);
    assert !found;
    store.ClearWatchlist();
    count := store.GetWatchlistCount();
    assert count == 0;
  }
}
